=== FILE: README.md ===
# inject-rev, modelled in Dafny

`inject-rev` is a TaskKit task that rewrites HTML-like files so that the asset
references between marker comments point at their revisioned (hashed) names.
A region opens on a line that matches the start expression (whose first
capture group is the asset reference) and does not also match the end
expression. It runs to the first later line that matches the end expression,
or to the end of the file. Each region's reference is looked up in the asset
map. The region's span, from the start match to its last line, is joined into
one text, and the first occurrence of that text in the joined document is
replaced by the joined text of three lines:

- the start match;
- a `<script>` tag (for `.js`), a `<link>` tag (for `.css`), or the reference
  itself (for anything else);
- the span's last line.

This project models that pipeline, `process` in `index.js`, as pure functions:

| module | models |
|---|---|
| `Wrappers` | `Option` and `Result` (a value or an error message) |
| `Text` | the JavaScript string operations used: `indexOf`, `split` and the first-occurrence `replace` with a string pattern, and `Array.join` |
| `Paths` | Node's POSIX `path.extname` |
| `Scanner` | `extractMiddleOfTag` and the `tags` stage; the start and end expressions are abstracted as functions of a line |
| `Resolver` | `getMiddleOfTag`, `getNewTag` and the `newTags` stage |
| `InjectRevision` | the `newContents` stage and `process`, from the text read to the text handed to `write` |

Points where the code's behaviour is easy to misread, all modelled as the
code has them:

- A reference that is neither `.js` nor `.css` becomes its own markup. The
  code returns the original reference (`index.js:55`), not the mapped value.
- Replacements are applied in scan order. `async.map` keeps its results in
  input order.
- A region with no end line is replaced like any other. Its span runs to the
  last line of the document and nothing flags it: the lines between its start
  line and the last line are dropped (`InjectRevision.OpenRegionRewritten`).
- A region that starts on the last line grows on every run. Its one-line span
  `m` becomes `m`, the markup and `m` (`index.js:63-68`); the copied `m` is
  the new last line, so the next run finds a second region there and adds two
  more lines (`InjectRevision.LastLineRegionGrows`).
- The first line of a span is the start match's text (`match[0]`), not the
  whole start line (`index.js:96`). The text before the match on the start
  line is therefore kept.
- Overlapping regions are not rejected. Each region's forward scan is
  independent of the others.
- The replace works on text, not on lines (`index.js:100-102`). When the start
  match does not end its line and the region has at least one line after its
  start line, the span's text does not occur at the region. The region is then
  silently left as it is, and the text is replaced wherever else it occurs, if
  anywhere. Text after the match, or a `\r` left by CRLF line endings split on
  `\n`, is enough (`InjectRevision.TrailingTextLeavesRegion`). A region on the
  last line is different: its span is the match alone, which does occur, so it
  is replaced even then. For `ab` with the match `a`, the document becomes `a`,
  the markup and `ab`, with the trailing `b` after the copied match
  (`InjectRevision.TrailingTextOnLastLine`). When the span's text also occurs
  earlier in the document, that earlier copy is the one replaced.

## Model

| member | source | states |
|---|---|---|
| Scanner.ExtractMiddleOfTagSpec | index.js:35-46 | `extractMiddleOfTag`: the collected lines are a run of consecutive document lines from `startingLine`; no line but the last matches the end expression; the last matches it exactly when some line at or after `startingLine` does; otherwise the run reaches the end of the document |
| Scanner.ExtractUpToFirstEnd | index.js:38-43 | when line `e` is the first end line at or after `from`, the lines collected are exactly lines `from` through `e` |
| Scanner.ExtractWithoutEnd | index.js:38-45 | when no line at or after `from` matches the end expression, all remaining lines are collected (none when `from` is the line count) |
| Scanner.TagsFrom | index.js:83-90 | the scan from a line on yields tags only for lines that open a region, in strictly increasing line order, each with its line's start match and the lines collected from the line after it |
| Scanner.TagsFromCovers | index.js:83-90 | no line at or after the scan's first line that opens a region is missed |
| Scanner.Tags | index.js:78-92 | exactly one tag per line that opens a region, in document order; each tag has its start match and its own forward scan, whatever other regions there are |
| Scanner.TagsOfSingleRegion | index.js:82-90 | a document whose only opening line is `s`, with first end line `e` after it, yields the single tag `(s, match, lines s+1..e)` |
| Scanner.TagsOfRepeatedLine | index.js:83-90 | a document `line, x, line`, where `line` opens a region and `x` neither opens nor ends one, yields two tags: line 0 collecting `x, line`, and line 2 collecting nothing |
| Scanner.TagsOfSingleOpenRegion | index.js:82-90 | a document whose only opening line is `s`, with no end line after it, yields the single tag `(s, match, every line after s)` |
| Scanner.OpenRegionSpan | index.js:88 | a region with no end line after its start has the span "start match, then every later line" |
| Paths.BaseNameIsLastSegment | index.js:49-52 | the file name `path.extname` looks at is the path's last segment: a suffix of the path with trailing slashes trimmed, either all of it or preceded by a '/' |
| Paths.ExtNameShape | index.js:49-52 | `path.extname`: the extension is empty exactly when the last segment is `..` or has no '.' after its first character; otherwise it is that segment's suffix from its last '.', holds no other '.', and is shorter than the segment |
| Paths.ExtNameIsSuffix | index.js:49-52 | a path has the extension `.js` (or `.css`) exactly when its last segment ends with it and is longer than it |
| Resolver.ScriptMarkup | index.js:49-50 | a `.js` reference becomes a script tag whose `src` is the mapped value resolved against `uiPath` |
| Resolver.StylesheetMarkup | index.js:52-53 | a `.css` reference becomes a stylesheet link whose `href` is the mapped value resolved against `uiPath` |
| Resolver.OtherMarkup | index.js:55 | any other reference is its own markup, whatever the mapped value |
| Resolver.OneExtension | index.js:49-52 | no file name ends in both `.js` and `.css`, so at most one of the two tag branches applies |
| Resolver.MarkupByFileName | index.js:48-56 | `getMiddleOfTag`: the three cases of the markup line together, chosen by the original reference's file name |
| Resolver.ResolveTag | index.js:94-97 | resolving one scanned tag looks up the start match's capture group and fails exactly when that lookup fails, with its error; on success the old span is the start match's text followed by the collected lines, and the new span is that text, the markup for the reference, and the span's last line |
| Resolver.GetNewTag | index.js:58-71 | the lookup fails exactly when the result fails, with the lookup's error; on success `oldTag` is the span and `newTag` is exactly `[span[0], markup, span[last]]`, with first and last equal for a one-line span |
| Resolver.NewTags | index.js:94-98 | succeeds exactly when every tag's reference is found, with one replacement per tag; otherwise fails with the error of the first tag, in scan order, whose lookup fails |
| Resolver.NewTagsInOrder | index.js:94-98 | on success the `k`-th replacement is the one the `k`-th tag resolves to |
| Resolver.NewTagsStep | index.js:94-98 | a successful stage starts with the first tag's replacement and continues with the stage's result on the remaining tags |
| Resolver.LastLineReplacement | index.js:63-68 | a region starting on the last line has the one-line span `[m]` and the replacement `[m, markup, m]` |
| Text.ReplacePrefix | index.js:102 | when the text starts with the pattern, the replace puts the replacement in place of that prefix and keeps the rest |
| Text.ReplaceSuffix | index.js:102 | when the pattern's leftmost occurrence ends the text, a replacement that starts with the pattern appends the rest of it to the text |
| Text.IndexOf | index.js:102 | finds a position exactly when the pattern occurs, and then the leftmost one |
| Text.ReplaceFirst | index.js:102 | the text is unchanged when the pattern does not occur; otherwise only its leftmost occurrence is replaced, literally |
| Text.Split | index.js:77 | there is at least one piece, and no piece contains the separator |
| Text.SplitFirstPiece | index.js:77 | a text splits into one piece, itself, exactly when the separator does not occur in it; otherwise the first piece ends where the separator first occurs, even for a separator that overlaps itself |
| Text.JoinSplit | index.js:77 | joining the split pieces with the same separator gives the text back |
| Text.JoinAppend | index.js:100 | `Array.join`: joining two non-empty line lists puts exactly one separator between them |
| Text.JoinAround | index.js:100 | in the joined text a line sits between the joined lines before it plus a separator and a separator plus the joined lines after it |
| InjectRevision.ApplyInOrder | index.js:101-103 | the replacements are applied one after the other: applying a list in two parts applies the second part to the text the first part leaves |
| InjectRevision.ApplyOne | index.js:101-103 | one replacement is one first-occurrence replace of the old span's joined text by the new span's joined text |
| InjectRevision.Rewrite | index.js:78-105 | the `tags`, `newTags` and `newContents` stages together: fails exactly when some region's reference is not found, with the first such region's error; without regions the result is the joined lines |
| InjectRevision.Process | index.js:74-107 | fails (so nothing is written) exactly when some region's reference is not found, with the first such region's error; for a document with no region, the text read is handed to `write` unchanged |
| InjectRevision.JoinRegion | index.js:100 | in the joined document a region's span, from the start match on, sits between the text before the match and the text after the end line |
| InjectRevision.ReplaceRegion | index.js:102 | when the span's leftmost occurrence is the region's own, the replace keeps the start line whole, puts the markup in place of the middle lines, and leaves everything else unchanged |
| InjectRevision.ReplaceRegionLines | index.js:100-102 | the same, stated on the document's lines: the result joins lines `..s`, the start line, the markup, the end line and lines `e+1..` |
| InjectRevision.SingleRegionReplacement | index.js:82-98 | a single-region document resolves to the single replacement `([match] + lines s+1..e, [match, markup, line e])` |
| InjectRevision.TwoLineReplacement | index.js:82-98 | a two-line document holding one region on its two lines resolves to `([match, line 1], [match, markup, line 1])` |
| InjectRevision.RewriteOne | index.js:99-105 | a document that resolves to one replacement is rewritten by that one first-occurrence replace |
| InjectRevision.OneRegionRewritten | index.js:78-105 | a single-region document whose region has an end line, and whose span first occurs at the region itself, is rewritten to its lines with the middle lines replaced by the markup, and every other line unchanged |
| InjectRevision.OpenRegionReplacement | index.js:82-98 | a document whose only region has no end line and starts before the last line `e` resolves to the single replacement `([match] + lines s+1..e, [match, markup, line e])` |
| InjectRevision.OpenRegionRewritten | index.js:78-105 | a document whose only region has no end line and starts before the last line, and whose span first occurs at the region itself, is rewritten to the lines before the region, its start line, the markup and the last line: the lines in between are dropped |
| InjectRevision.LastLineRegionReplacement | index.js:82-98 | a document whose only region starts on its last line resolves to the single replacement `([match], [match, markup, match])` |
| InjectRevision.LastLineRegionRewritten | index.js:78-105 | a document whose only region starts on its last line, and whose match's leftmost occurrence ends the joined text, is rewritten to its lines followed by the markup and the match: two lines longer |
| InjectRevision.RewriteAgainUnchanged | index.js:78-105 | a three-line region whose middle line already is the markup for its reference is rewritten to the same text: with an unchanged asset map a second run changes nothing there |
| InjectRevision.LastLineRegionGrows | index.js:63-68 | with the whole last line `line` as the start match and no end line, one run turns `[line]` into `line`, markup, `line`, and a second run on that output gives `line`, markup, `line`, markup, `line`: the document grows by two lines per run with an unchanged asset map |
| InjectRevision.TrailingTextOnLastLine | index.js:88-102 | a one-line document `m + rest` whose start match `m` begins the line is rewritten to `m`, the markup and `m + rest`, never to itself: a last-line region is replaced even when text follows its match |
| InjectRevision.TrailingTextLeavesRegion | index.js:96-102 | with text after the start match on the start line (`ab` with match `a`), the span's text `a` + EOL + `e` does not occur and the document `ab` EOL `e` is written back unchanged, although its reference is found |

## Left out

- The decoding of the file's bytes by `buffer.toString()` (`index.js:77`), which reads them as UTF-8 and turns each invalid byte into U+FFFD. The model starts from the decoded text, so "unchanged" means the decoded text; a file that is not valid UTF-8 does not reach `write` as the bytes that were read.
- Reading the input file and `this.write` (`index.js:76`, `index.js:106`) are file I/O. The model is a function from the text read to a `Result`. Its success value is the text `write` receives. A failure means `write` is never reached.
- `async.autoInject` and the concurrency of the lookups in `async.map`. The lookups are a sequential fold that stops at the first failure. When several lookups fail, the program reports whichever fails first in time. The model reports the first in scan order.
- The asset map and its loading options (`index.js:4`, `index.js:13`). The lookup is an uninterpreted function from a reference to a mapped value or an error message.
- The option name `pathToAssetMap` (`index.js:13`) differs from the documented default `mappingPath` (`index.js:23`). This is configuration and is not modelled.
- `init`, `description`, `defaultOptions` and the TaskKit base class (`index.js:12-33`) are plumbing.
- The regular-expression engine and the default marker expressions (`index.js:25-27`, `index.js:37`, `index.js:79-80`). The start expression is a function from a line to an optional match, carrying the matched text and its first capture group. The end expression is a predicate on a line.
- `url.resolve` is an uninterpreted function of `uiPath` and the mapped value.
- `path.extname` is modelled as Node's POSIX version only. The Windows variant, with `\` separators and drive letters, is not modelled.
- The `$` patterns that `String.prototype.replace` interprets in a replacement string are not modelled. The replacement text is taken literally.
- `os.EOL` is a fixed non-empty separator in the task's configuration.
- Resolver.GetNewTag: requires a non-empty span. Its only caller always passes the start match followed by the collected lines.
- InjectRevision.OneRegionRewritten: covers a document with one region only, and one that has an end line. A lone region without one is stated by `InjectRevision.OpenRegionRewritten` when it starts before the last line, and by `InjectRevision.LastLineRegionRewritten` when it starts on the last line, for a match whose leftmost occurrence ends the text. With several regions, each replace acts on the text the earlier ones left, so its effect is stated per step (`InjectRevision.ApplyOne`, `Text.ReplaceFirst`), not per region.
- Running `process` again on its own output is stated for one document shape per case. For a region with an end line (`InjectRevision.RewriteAgainUnchanged`), the start and end lines are kept verbatim, so a second run finds the same region and looks the same reference up again; with an unchanged asset map the text is the same. A region that starts on the last line is not stable: it grows by two lines per run (`InjectRevision.LastLineRegionGrows`).

=== FILE: inject_revision.dfy ===
/** The whole `process` pipeline for one file, once read: split the text into
    lines, scan the tags, resolve them all, and substitute each region's span in
    the joined text. The result's value is the text handed to `write`; a failure
    means `write` is never called.
 */
module InjectRevision {
  import opened Wrappers
  import opened Text
  import opened Scanner
  import opened Resolver

  /** The task's configuration and collaborators: the start and end expressions,
      the platform end-of-line separator, and what resolution needs. */
  datatype Task = Task(markers: Markers, eol: Separator, resolution: Resolution)

  /** Applies the replacements in order, each to the text the previous ones left:
      the leftmost occurrence of the old span's joined text becomes the new
      span's joined text. */
  function ApplyReplacements(text: string, reps: seq<Replacement>, eol: Separator): string
    decreases |reps|
  {
    if |reps| == 0 then text
    else
      var next := ReplaceFirst(text, Join(reps[0].oldTag, eol), Join(reps[0].newTag, eol));
      ApplyReplacements(next, reps[1..], eol)
  }

  /** A single replacement is one first-occurrence replace. */
  lemma ApplyOne(text: string, rep: Replacement, eol: Separator)
    ensures ApplyReplacements(text, [rep], eol) ==
              ReplaceFirst(text, Join(rep.oldTag, eol), Join(rep.newTag, eol))
  {
    assert [rep][1..] == [];
  }

  /** The replacements are applied one after the other: applying a list in two
      parts applies the second part to the text the first part leaves. */
  lemma {:induction false} ApplyInOrder(text: string, a: seq<Replacement>, b: seq<Replacement>,
                                        eol: Separator)
    ensures ApplyReplacements(text, a + b, eol) ==
              ApplyReplacements(ApplyReplacements(text, a, eol), b, eol)
    decreases |a|
  {
    if |a| > 0 {
      var next := ReplaceFirst(text, Join(a[0].oldTag, eol), Join(a[0].newTag, eol));
      assert (a + b)[0] == a[0];
      assert (a + b)[1..] == a[1..] + b;
      ApplyInOrder(next, a[1..], b, eol);
    } else {
      assert a + b == b;
    }
  }

  /** The `newContents` stage. */
  function NewContents(content: seq<string>, reps: seq<Replacement>, eol: Separator): string {
    ApplyReplacements(Join(content, eol), reps, eol)
  }

  /** The tags of the document `input`. */
  function TagsOf(input: string, task: Task): seq<Tag> {
    Tags(Split(input, task.eol), task.markers)
  }

  /** The stages after the text is split (`tags`, `newTags`, `newContents`),
      over the document's lines: it fails exactly when some region's reference
      is not found, with the error of the first such region in document order,
      and without regions it gives back the joined lines. */
  function Rewrite(content: seq<string>, task: Task): (r: Result<string>)
    ensures r.Failure? <==> !AllFound(task.resolution, Tags(content, task.markers))
    ensures r.Failure? ==>
              exists k: nat :: FirstMissing(task.resolution, Tags(content, task.markers), k) &&
                               r.error == task.resolution.lookup(Tags(content, task.markers)[k].Term()).error
    ensures (forall i: nat :: !OpensAt(content, task.markers, i)) ==>
              r == Success(Join(content, task.eol))
  {
    var tags := Tags(content, task.markers);
    assert |tags| > 0 ==> OpensAt(content, task.markers, tags[0].line);
    var newTags :- NewTags(task.resolution, tags);
    Success(NewContents(content, newTags, task.eol))
  }

  /** `process` from the read text to the text written: it fails exactly when
      some region's reference is not found, with the error of the first such
      region in document order (so nothing is written), and for a document
      without regions the text read is handed to `write` unchanged. */
  function Process(input: string, task: Task): (r: Result<string>)
    ensures r.Failure? <==> !AllFound(task.resolution, TagsOf(input, task))
    ensures r.Failure? ==>
              exists k: nat :: FirstMissing(task.resolution, TagsOf(input, task), k) &&
                               r.error == task.resolution.lookup(TagsOf(input, task)[k].Term()).error
    ensures (forall i: nat :: !OpensAt(Split(input, task.eol), task.markers, i)) ==>
              r == Success(input)
  {
    JoinSplit(input, task.eol);
    Rewrite(Split(input, task.eol), task)
  }

  /** A region's text inside the joined document: the start line `p + m` of a
      region ends with `m`, so the joined span that starts at `m` sits between
      the text before `m` and the text after the end line. */
  lemma {:induction false} JoinRegion(pre: seq<string>, p: string, m: string, mid: seq<string>,
                                      endLine: string, post: seq<string>, sep: Separator)
    ensures Join(pre + [p + m] + mid + [endLine] + post, sep)
            == JoinedBefore(pre, sep) + p + Join([m] + mid + [endLine], sep) + JoinedAfter(post, sep)
  {
    var tail := mid + [endLine];
    var span := Join(tail, sep);
    assert Join([m] + mid + [endLine], sep) == m + sep + span by {
      assert [m] + mid + [endLine] == [m] + tail;
      JoinAppend([m], tail, sep);
    }
    assert Join(tail + post, sep) == span + JoinedAfter(post, sep) by {
      JoinThenAfter(tail, post, sep);
    }
    assert Join(pre + [p + m] + mid + [endLine] + post, sep)
           == JoinedBefore(pre, sep) + (p + m) + sep + Join(tail + post, sep) by {
      assert pre + [p + m] + mid + [endLine] + post == pre + [p + m] + (tail + post);
      JoinAround(pre, p + m, tail + post, sep);
    }
    Regroup(JoinedBefore(pre, sep), p, m, sep, span, JoinedAfter(post, sep));
  }

  /** Regrouping six consecutive pieces of text. */
  lemma Regroup(a: string, b: string, c: string, d: string, e: string, f: string)
    ensures a + (b + c) + d + (e + f) == a + b + (c + d + e) + f
  {
  }

  /** Replacing a region's span in a joined document. The old span starts with
      `m`, the end of the region's start line `p + m`, and runs to the end line;
      when the leftmost occurrence of its joined text is the region's own, the
      replacement rewrites exactly the region: the start line is kept whole, the
      markup takes the place of the middle lines, and everything before and
      after the region is unchanged. */
  lemma {:induction false} ReplaceRegion(pre: seq<string>, p: string, m: string, mid: seq<string>,
                                         endLine: string, post: seq<string>, markup: string,
                                         sep: Separator)
    requires FirstOccurrence(Join(pre + [p + m] + mid + [endLine] + post, sep),
                             Join([m] + mid + [endLine], sep),
                             |JoinedBefore(pre, sep)| + |p|)
    ensures ReplaceFirst(Join(pre + [p + m] + mid + [endLine] + post, sep),
                         Join([m] + mid + [endLine], sep),
                         Join([m, markup, endLine], sep))
            == Join(pre + [p + m, markup, endLine] + post, sep)
  {
    var before := JoinedBefore(pre, sep);
    var after := JoinedAfter(post, sep);
    var text := Join(pre + [p + m] + mid + [endLine] + post, sep);
    var oldText := Join([m] + mid + [endLine], sep);
    var newText := Join([m] + [markup] + [endLine], sep);
    assert [m] + [markup] + [endLine] == [m, markup, endLine];
    JoinRegion(pre, p, m, mid, endLine, post, sep);
    JoinRegion(pre, p, m, [markup], endLine, post, sep);
    assert pre + [p + m] + [markup] + [endLine] + post == pre + [p + m, markup, endLine] + post;
    var k := |before| + |p|;
    assert text[..k] == before + p;
    assert text[k + |oldText|..] == after;
  }

  /** When the document resolves to a single replacement, the rewritten text
      is the joined lines with that one replacement applied. */
  lemma RewriteOne(content: seq<string>, task: Task, oldTag: seq<string>, newTag: seq<string>,
                   result: string)
    requires NewTags(task.resolution, Tags(content, task.markers)) ==
               Success([Replacement(oldTag, newTag)])
    requires ReplaceFirst(Join(content, task.eol), Join(oldTag, task.eol), Join(newTag, task.eol))
               == result
    ensures Rewrite(content, task) == Success(result)
  {
    ApplyOne(Join(content, task.eol), Replacement(oldTag, newTag), task.eol);
  }

  /** The replacement a single region resolves to: its old span is the start
      match's text, the middle lines and the end line; its new span is the start
      match's text, the markup and the end line. */
  lemma {:induction false} SingleRegionReplacement(content: seq<string>, markers: Markers,
                                                   res: Resolution, s: nat, e: nat,
                                                   m: StartMatch, mapped: string)
    requires SingleRegion(content, markers, s, e)
    requires markers.start(content[s]) == Some(m)
    requires res.lookup(m.term) == Success(mapped)
    ensures NewTags(res, Tags(content, markers)) ==
              Success([Replacement([m.text] + content[s + 1..e + 1],
                                   [m.text, GetMiddleOfTag(res, m.term, mapped), content[e]])])
  {
    TagsOfSingleRegion(content, markers, s, e);
    var tag := Tag(s, m, content[s + 1..e + 1]);
    var span := [m.text] + content[s + 1..e + 1];
    assert tag.Span() == span;
    assert span[|span| - 1] == content[e];
    var rep := Replacement(span, [m.text, GetMiddleOfTag(res, m.term, mapped), content[e]]);
    assert Resolve(res, tag) == Success(rep);
    assert NewTags(res, [tag][1..]) == Success([]);
    assert [rep] + [] == [rep];
    assert NewTags(res, [tag]) == Success([rep]);
  }

  /** Lines `s` to `e` hold a region whose start line ends with `m`, and the
      joined text of the span that starts at `m` and runs to line `e` first
      occurs, in the joined document, at that very place. */
  ghost predicate SpanFirstAt(content: seq<string>, sep: Separator, s: nat, e: nat, m: string) {
    && s < e < |content|
    && |m| <= |content[s]| && content[s][|content[s]| - |m|..] == m
    && FirstOccurrence(Join(content, sep), Join([m] + content[s + 1..e + 1], sep),
                       |JoinedBefore(content[..s], sep)| + |content[s]| - |m|)
  }

  /** The region's rewrite, stated on the lines of the document: the start line
      is kept whole, the markup takes the place of the middle lines, the end line
      follows, and every other line is unchanged. */
  lemma {:induction false} ReplaceRegionLines(content: seq<string>, s: nat, e: nat, m: string,
                                              markup: string, sep: Separator)
    requires SpanFirstAt(content, sep, s, e, m)
    ensures ReplaceFirst(Join(content, sep), Join([m] + content[s + 1..e + 1], sep),
                         Join([m, markup, content[e]], sep))
            == Join(content[..s] + [content[s], markup, content[e]] + content[e + 1..], sep)
  {
    var p := content[s][..|content[s]| - |m|];
    RegionPieces(content, s, e, m);
    ReplaceRegion(content[..s], p, m, content[s + 1..e], content[e], content[e + 1..], markup, sep);
  }

  /** The lines of a document cut around a region on lines `s` to `e` whose
      start line ends with `m`. */
  lemma RegionPieces(content: seq<string>, s: nat, e: nat, m: string)
    requires s < e < |content|
    requires |m| <= |content[s]| && content[s][|content[s]| - |m|..] == m
    ensures var p := content[s][..|content[s]| - |m|];
      && p + m == content[s]
      && content == content[..s] + [p + m] + content[s + 1..e] + [content[e]] + content[e + 1..]
      && [m] + content[s + 1..e + 1] == [m] + content[s + 1..e] + [content[e]]
  {
    var line := content[s];
    assert line == line[..|line| - |m|] + m;
    assert content == content[..s] + [line] + content[s + 1..e] + [content[e]] + content[e + 1..];
    assert content[s + 1..e + 1] == content[s + 1..e] + [content[e]];
  }

  /** A document with one region, whose start match ends its start line and
      whose span's joined text first occurs at the region itself, is rewritten
      with that region's span replaced by its start line, the markup and its end
      line, and every other line unchanged. */
  lemma {:induction false} OneRegionRewritten(content: seq<string>, task: Task, s: nat, e: nat,
                                              m: StartMatch, mapped: string)
    requires SingleRegion(content, task.markers, s, e)
    requires task.markers.start(content[s]) == Some(m)
    requires task.resolution.lookup(m.term) == Success(mapped)
    requires SpanFirstAt(content, task.eol, s, e, m.text)
    ensures Rewrite(content, task) ==
              Success(Join(content[..s] +
                           [content[s], GetMiddleOfTag(task.resolution, m.term, mapped), content[e]] +
                           content[e + 1..], task.eol))
  {
    var markup := GetMiddleOfTag(task.resolution, m.term, mapped);
    ReplaceRegionLines(content, s, e, m.text, markup, task.eol);
    SingleRegionReplacement(content, task.markers, task.resolution, s, e, m, mapped);
    RewriteOne(content, task, [m.text] + content[s + 1..e + 1], [m.text, markup, content[e]],
               Join(content[..s] + [content[s], markup, content[e]] + content[e + 1..], task.eol));
  }

  /** The replacement a single region without an end line resolves to, where
      `e` is the document's last line: its old span is the start match's text
      and every later line; its new span is the start match's text, the markup
      and the last line. */
  lemma {:induction false} OpenRegionReplacement(content: seq<string>, markers: Markers,
                                                 res: Resolution, s: nat, e: nat,
                                                 m: StartMatch, mapped: string)
    requires SingleOpenRegion(content, markers, s) && s < e && e + 1 == |content|
    requires markers.start(content[s]) == Some(m)
    requires res.lookup(m.term) == Success(mapped)
    ensures NewTags(res, Tags(content, markers)) ==
              Success([Replacement([m.text] + content[s + 1..e + 1],
                                   [m.text, GetMiddleOfTag(res, m.term, mapped), content[e]])])
  {
    TagsOfSingleOpenRegion(content, markers, s);
    assert content[s + 1..] == content[s + 1..e + 1];
    var tag := Tag(s, m, content[s + 1..e + 1]);
    var span := [m.text] + content[s + 1..e + 1];
    assert tag.Span() == span;
    assert span[|span| - 1] == content[e];
    NewTagsOfOne(res, tag);
  }

  /** A document with one region and no end line, whose start line `s` is not
      the last line `e` and whose span's joined text first occurs at the region
      itself, is rewritten to the lines before the region, the start line, the
      markup and the last line: every line between the start line and the last
      line is dropped. */
  lemma {:induction false} OpenRegionRewritten(content: seq<string>, task: Task, s: nat, e: nat,
                                               m: StartMatch, mapped: string)
    requires SingleOpenRegion(content, task.markers, s) && s < e && e + 1 == |content|
    requires task.markers.start(content[s]) == Some(m)
    requires task.resolution.lookup(m.term) == Success(mapped)
    requires SpanFirstAt(content, task.eol, s, e, m.text)
    ensures Rewrite(content, task) ==
              Success(Join(content[..s] +
                           [content[s], GetMiddleOfTag(task.resolution, m.term, mapped), content[e]],
                           task.eol))
  {
    var markup := GetMiddleOfTag(task.resolution, m.term, mapped);
    OpenRegionText(content, s, e, m.text, markup, task.eol);
    OpenRegionReplacement(content, task.markers, task.resolution, s, e, m, mapped);
    RewriteOne(content, task, [m.text] + content[s + 1..e + 1], [m.text, markup, content[e]],
               Join(content[..s] + [content[s], markup, content[e]], task.eol));
  }

  /** The text of an open region's rewrite: the span from the match to the
      last line `e` is replaced by the match, the markup and the last line. */
  lemma OpenRegionText(content: seq<string>, s: nat, e: nat, m: string, markup: string,
                       eol: Separator)
    requires e + 1 == |content| && SpanFirstAt(content, eol, s, e, m)
    ensures ReplaceFirst(Join(content, eol), Join([m] + content[s + 1..e + 1], eol),
                         Join([m, markup, content[e]], eol))
            == Join(content[..s] + [content[s], markup, content[e]], eol)
  {
    ReplaceRegionLines(content, s, e, m, markup, eol);
    NothingAfter(content, e, content[..s] + [content[s], markup, content[e]]);
  }

  /** Nothing follows the last line. */
  lemma NothingAfter(content: seq<string>, e: nat, kept: seq<string>)
    requires e + 1 == |content|
    ensures kept + content[e + 1..] == kept
  {
  }

  /** A document with one region, on its last line, whose start match's text
      first occurs at the very end of the joined document, is rewritten to its
      lines followed by the markup and the start match's text: two more lines. */
  lemma LastLineRegionRewritten(content: seq<string>, task: Task, m: StartMatch, mapped: string)
    requires |content| > 0 && SingleOpenRegion(content, task.markers, |content| - 1)
    requires task.markers.start(content[|content| - 1]) == Some(m)
    requires task.resolution.lookup(m.term) == Success(mapped)
    requires var text := Join(content, task.eol);
      |m.text| <= |text| && FirstOccurrence(text, m.text, |text| - |m.text|)
    ensures Rewrite(content, task) ==
              Success(Join(content + [GetMiddleOfTag(task.resolution, m.term, mapped), m.text],
                           task.eol))
  {
    var markup := GetMiddleOfTag(task.resolution, m.term, mapped);
    var rep := Replacement([m.text], [m.text, markup, m.text]);
    LastLineRegionReplacement(content, task.markers, task.resolution, m, mapped);
    RewriteBy(content, task, [rep]);
    AppendAtEnd(Join(content, task.eol), rep, content, markup, task.eol);
  }

  /** The replacement a single region on the last line resolves to: the match
      alone, by the match, the markup and the match. */
  lemma LastLineRegionReplacement(content: seq<string>, markers: Markers, res: Resolution,
                                  m: StartMatch, mapped: string)
    requires |content| > 0 && SingleOpenRegion(content, markers, |content| - 1)
    requires markers.start(content[|content| - 1]) == Some(m)
    requires res.lookup(m.term) == Success(mapped)
    ensures NewTags(res, Tags(content, markers)) ==
              Success([Replacement([m.text], [m.text, GetMiddleOfTag(res, m.term, mapped), m.text])])
  {
    var s := |content| - 1;
    TagsOfSingleOpenRegion(content, markers, s);
    assert content[s + 1..] == [];
    var tag := Tag(s, m, []);
    assert tag.Span() == [m.text];
    NewTagsOfOne(res, tag);
  }

  /** The text of a last-line region's rewrite: the match at the end of the
      text is followed by the markup and the match again. */
  lemma AppendAtEnd(text: string, rep: Replacement, content: seq<string>, markup: string,
                    eol: Separator)
    requires |content| > 0 && text == Join(content, eol)
    requires |rep.oldTag| == 1 && rep.newTag == [rep.oldTag[0], markup, rep.oldTag[0]]
    requires |rep.oldTag[0]| <= |text| && FirstOccurrence(text, rep.oldTag[0], |text| - |rep.oldTag[0]|)
    ensures ApplyReplacements(text, [rep], eol) == Join(content + [markup, rep.oldTag[0]], eol)
  {
    var m := rep.oldTag[0];
    var rest := eol + markup + eol + m;
    ApplyOne(text, rep, eol);
    assert Join(rep.oldTag, eol) == m;
    JoinThree(m, markup, m, eol);
    TrailingRun(m, markup, eol);
    ReplaceSuffix(text, m, rest);
    JoinTwoMore(content, markup, m, eol);
  }

  /** The markup and the match, after the match. */
  lemma TrailingRun(m: string, markup: string, eol: string)
    ensures m + eol + markup + eol + m == m + (eol + markup + eol + m)
  {
  }

  /** Two more lines after a non-empty document. */
  lemma JoinTwoMore(content: seq<string>, markup: string, m: string, eol: Separator)
    requires |content| > 0
    ensures Join(content + [markup, m], eol) == Join(content, eol) + (eol + markup + eol + m)
  {
    JoinAppend(content, [markup, m], eol);
    assert [markup, m][1..] == [m];
    assert Join([markup, m], eol) == markup + eol + m;
  }

  /** Running the rewrite again on its own output, with the same asset map,
      gives the same text for a region that has an end line: the region's start
      and end lines are kept, so the same region is found, its reference is
      looked up again, and the span `[m, markup, end]` is replaced by itself.
      A region that starts on the last line is not stable; see
      `LastLineRegionGrows`. */
  lemma {:induction false} RewriteAgainUnchanged(content: seq<string>, task: Task, s: nat,
                                                 m: StartMatch, mapped: string)
    requires SingleRegion(content, task.markers, s, s + 2)
    requires task.markers.start(content[s]) == Some(m)
    requires task.resolution.lookup(m.term) == Success(mapped)
    requires content[s + 1] == GetMiddleOfTag(task.resolution, m.term, mapped)
    requires SpanFirstAt(content, task.eol, s, s + 2, m.text)
    ensures Rewrite(content, task) == Success(Join(content, task.eol))
  {
    OneRegionRewritten(content, task, s, s + 2, m, mapped);
    assert s + 2 < |content| by {
      assert EndsAt(content, task.markers.isEnd, s + 2);
    }
    ThreeLinesInPlace(content, s);
  }

  /** A region whose start line is the document's last line grows on every
      run. Its one-line span `line` becomes `line`, the markup and `line` again,
      and on the next run the copied last line opens a region of its own, whose
      span `line` is replaced at its first occurrence: two more lines each time,
      although the asset map is unchanged. Here the match is the whole start
      line and the markup neither opens nor ends a region. */
  lemma LastLineRegionGrows(task: Task, line: string, term: string, mapped: string)
    requires task.markers.start(line) == Some(StartMatch(line, term))
    requires !task.markers.isEnd(line)
    requires task.resolution.lookup(term) == Success(mapped)
    requires var markup := GetMiddleOfTag(task.resolution, term, mapped);
      task.markers.start(markup) == None && !task.markers.isEnd(markup)
    ensures var markup, eol := GetMiddleOfTag(task.resolution, term, mapped), task.eol;
      && Rewrite([line], task) == Success(line + eol + markup + eol + line)
      && Rewrite([line, markup, line], task) ==
           Success(line + eol + markup + eol + line + eol + markup + eol + line)
  {
    FirstRunOnLastLine(task, line, term, mapped);
    SecondRunOnLastLine(task, line, term, mapped);
  }

  /** A region on the last line whose start match `m` begins the line but does
      not end it is still replaced, since its span is the match alone: `m` is
      replaced by `m`, the markup and `m`, and the text after the match ends up
      after the copied `m`. The line "ab" with the match "a" becomes "a", the
      markup and "ab"; the document is not written back as it was. */
  lemma TrailingTextOnLastLine(task: Task, m: string, rest: string, term: string, mapped: string)
    requires task.markers.start(m + rest) == Some(StartMatch(m, term))
    requires !task.markers.isEnd(m + rest)
    requires task.resolution.lookup(term) == Success(mapped)
    ensures var markup, eol := GetMiddleOfTag(task.resolution, term, mapped), task.eol;
      && Rewrite([m + rest], task) == Success(m + eol + markup + eol + m + rest)
      && Rewrite([m + rest], task) != Success(m + rest)
  {
    var sm := StartMatch(m, term);
    var markup := GetMiddleOfTag(task.resolution, term, mapped);
    var t := Tag(0, sm, []);
    var rep := Replacement([m], [m, markup, m]);
    TagsOfOneLine([m + rest], task.markers, sm);
    assert t.Span() == [m];
    assert Resolve(task.resolution, t) == Success(rep);
    NewTagsOfOne(task.resolution, t);
    RewriteBy([m + rest], task, [rep]);
    FirstRunText(m, rest, markup, task.eol);
  }

  /** The first run on a document whose only line opens a region whose start
      match is the whole line: a last-line region. */
  lemma FirstRunOnLastLine(task: Task, line: string, term: string, mapped: string)
    requires task.markers.start(line) == Some(StartMatch(line, term))
    requires !task.markers.isEnd(line)
    requires task.resolution.lookup(term) == Success(mapped)
    ensures var markup, eol := GetMiddleOfTag(task.resolution, term, mapped), task.eol;
      Rewrite([line], task) == Success(line + eol + markup + eol + line)
  {
    var markup := GetMiddleOfTag(task.resolution, term, mapped);
    assert SingleOpenRegion([line], task.markers, 0);
    assert Join([line], task.eol) == line;
    assert FirstOccurrence(line, line, 0);
    LastLineRegionRewritten([line], task, StartMatch(line, term), mapped);
    assert [line] + [markup, line] == [line, markup, line];
    JoinThree(line, markup, line, task.eol);
  }

  /** The text of the first run: the match that begins the line is replaced by
      the match, the markup and the match. */
  lemma FirstRunText(m: string, rest: string, markup: string, eol: Separator)
    ensures ApplyReplacements(Join([m + rest], eol), [Replacement([m], [m, markup, m])], eol)
            == m + eol + markup + eol + m + rest
  {
    var rep := Replacement([m], [m, markup, m]);
    ApplyOne(m + rest, rep, eol);
    assert Join([m], eol) == m;
    JoinThree(m, markup, m, eol);
    assert (m + rest)[..|m|] == m && (m + rest)[|m|..] == rest;
    ReplacePrefix(m + rest, m, Join([m, markup, m], eol));
  }

  /** The second run, on the first run's output: the copied last line opens a
      second region, and its span `line` is replaced at the start of the text. */
  lemma SecondRunOnLastLine(task: Task, line: string, term: string, mapped: string)
    requires task.markers.start(line) == Some(StartMatch(line, term))
    requires !task.markers.isEnd(line)
    requires task.resolution.lookup(term) == Success(mapped)
    requires var markup := GetMiddleOfTag(task.resolution, term, mapped);
      task.markers.start(markup) == None && !task.markers.isEnd(markup)
    ensures var markup, eol := GetMiddleOfTag(task.resolution, term, mapped), task.eol;
      Rewrite([line, markup, line], task) ==
        Success(line + eol + markup + eol + line + eol + markup + eol + line)
  {
    var m := StartMatch(line, term);
    var markup := GetMiddleOfTag(task.resolution, term, mapped);
    var content := [line, markup, line];
    var t0, t1 := Tag(0, m, [markup, line]), Tag(2, m, []);
    TagsOfRepeatedLine(content, task.markers, m);
    assert t0.Span() == content && t1.Span() == [line];
    assert Resolve(task.resolution, t0) == Success(Replacement(content, content));
    assert Resolve(task.resolution, t1) == Success(Replacement([line], content));
    NewTagsOfTwo(task.resolution, t0, t1);
    RewriteBy(content, task, [Replacement(content, content), Replacement([line], content)]);
    SecondRunText(line, markup, task.eol);
  }

  /** The text of the second run: the whole span is replaced by itself, then the
      first occurrence of the line, at the very start, by the three lines. */
  lemma SecondRunText(line: string, markup: string, eol: Separator)
    ensures var content := [line, markup, line];
      ApplyReplacements(Join(content, eol),
                        [Replacement(content, content), Replacement([line], content)], eol)
      == line + eol + markup + eol + line + eol + markup + eol + line
  {
    var content := [line, markup, line];
    var r0, r1 := Replacement(content, content), Replacement([line], content);
    var once := Join(content, eol);
    var tail := eol + markup + eol + line;
    JoinThree(line, markup, line, eol);
    assert Join([line], eol) == line;
    RegroupRuns(line, markup, eol);
    ApplySelf(once, r0, eol);
    ApplyAtStart(once, r1, tail, eol);
    assert [r0, r1] == [r0] + [r1];
    ApplyInOrder(once, [r0], [r1], eol);
  }

  /** The first run's output is its start line followed by the rest, and the
      second run's output is the first's followed by that rest again. */
  lemma RegroupRuns(line: string, markup: string, eol: string)
    ensures line + eol + markup + eol + line == line + (eol + markup + eol + line)
    ensures (line + eol + markup + eol + line) + (eol + markup + eol + line)
            == line + eol + markup + eol + line + eol + markup + eol + line
  {
  }

  /** A replacement whose old and new spans both join to the whole text leaves
      it as it is. */
  lemma ApplySelf(text: string, rep: Replacement, eol: Separator)
    requires Join(rep.oldTag, eol) == text && Join(rep.newTag, eol) == text
    ensures ApplyReplacements(text, [rep], eol) == text
  {
    ApplyOne(text, rep, eol);
    ReplacePrefix(text, text, text);
    assert text[|text|..] == [];
  }

  /** A replacement whose old span's joined text starts the text puts the new
      span's joined text in its place. */
  lemma ApplyAtStart(text: string, rep: Replacement, rest: string, eol: Separator)
    requires text == Join(rep.oldTag, eol) + rest
    ensures ApplyReplacements(text, [rep], eol) == Join(rep.newTag, eol) + rest
  {
    var pat := Join(rep.oldTag, eol);
    ApplyOne(text, rep, eol);
    assert text[..|pat|] == pat && text[|pat|..] == rest;
    ReplacePrefix(text, pat, Join(rep.newTag, eol));
  }

  /** A document whose regions resolve to `reps` is rewritten to its joined
      lines with `reps` applied in order. */
  lemma RewriteBy(content: seq<string>, task: Task, reps: seq<Replacement>)
    requires NewTags(task.resolution, Tags(content, task.markers)) == Success(reps)
    ensures Rewrite(content, task) == Success(ApplyReplacements(Join(content, task.eol), reps, task.eol))
  {
  }

  /** Putting lines `s` to `s + 2` back in their place gives the lines. */
  lemma ThreeLinesInPlace(content: seq<string>, s: nat)
    requires s + 2 < |content|
    ensures content[..s] + [content[s], content[s + 1], content[s + 2]] + content[s + 3..] == content
  {
    assert [content[s], content[s + 1], content[s + 2]] == content[s..s + 3];
    assert content[..s] + content[s..s + 3] == content[..s + 3];
  }

  /** When the start match does not end its line, the span's joined text (the
      match, a line break, the collected lines) need not occur in the document
      at all, and then the region is left as it was although its reference was
      found. Here the line "ab" opens a region whose match is "a", and the
      document "ab\ne" is written back unchanged. */
  lemma TrailingTextLeavesRegion(task: Task, term: string, mapped: string)
    requires task.eol == "\n"
    requires task.markers.start("ab") == Some(StartMatch("a", term))
    requires !task.markers.isEnd("ab") && task.markers.isEnd("e")
    requires task.resolution.lookup(term) == Success(mapped)
    ensures Rewrite(["ab", "e"], task) == Success("ab\ne")
  {
    var content := ["ab", "e"];
    var markup := GetMiddleOfTag(task.resolution, term, mapped);
    TwoLineRegion(content, task.markers);
    TwoLineReplacement(content, task.markers, task.resolution, StartMatch("a", term), mapped);
    var text := Join(content, task.eol);
    assert ReplaceFirst(text, Join(["a", "e"], task.eol), Join(["a", markup, "e"], task.eol)) == text
           && text == "ab\ne" by {
      SpanAbsent(markup, task.eol);
    }
    RewriteOne(content, task, ["a", "e"], ["a", markup, "e"], text);
  }

  /** A two-line document holding a single region on its two lines resolves
      to the one replacement of that region: the match and the end line, by the
      match, the markup and the end line. */
  lemma TwoLineReplacement(content: seq<string>, markers: Markers, res: Resolution,
                           m: StartMatch, mapped: string)
    requires |content| == 2 && SingleRegion(content, markers, 0, 1)
    requires markers.start(content[0]) == Some(m)
    requires res.lookup(m.term) == Success(mapped)
    ensures NewTags(res, Tags(content, markers)) ==
              Success([Replacement([m.text, content[1]],
                                   [m.text, GetMiddleOfTag(res, m.term, mapped), content[1]])])
  {
    var markup := GetMiddleOfTag(res, m.term, mapped);
    var r := NewTags(res, Tags(content, markers));
    SingleRegionReplacement(content, markers, res, 0, 1, m, mapped);
    SecondLineSpan(m.text, content);
    assert r == Success([Replacement([m.text] + content[1..2], [m.text, markup, content[1]])]);
  }

  /** The span from a match through the second line of a two-line document. */
  lemma SecondLineSpan(x: string, content: seq<string>)
    requires |content| == 2
    ensures [x] + content[1..2] == [x, content[1]]
  {
    assert content[1..2] == [content[1]];
  }

  /** A two-line document whose first line opens a region and whose second line
      ends it holds exactly that region. */
  lemma TwoLineRegion(content: seq<string>, markers: Markers)
    requires |content| == 2 && Opens(markers, content[0]) && markers.isEnd(content[1])
    ensures SingleRegion(content, markers, 0, 1)
  {
    assert OpensAt(content, markers, 0);
    assert EndsAt(content, markers.isEnd, 1);
  }

  /** The joined span "a\ne" does not occur in "ab\ne", so replacing it leaves
      the text as it is. */
  lemma SpanAbsent(markup: string, sep: Separator)
    requires sep == "\n"
    ensures Join(["ab", "e"], sep) == "ab\ne"
    ensures ReplaceFirst(Join(["ab", "e"], sep), Join(["a", "e"], sep),
                         Join(["a", markup, "e"], sep)) == Join(["ab", "e"], sep)
  {
    var text := Join(["ab", "e"], sep);
    var pat := Join(["a", "e"], sep);
    assert text == "ab\ne";
    assert pat == "a\ne";
    forall j: nat
      ensures !OccursAt(text, pat, j)
    {
      if j == 0 {
        assert text[1] != pat[1];
      } else if j == 1 {
        assert text[1] != pat[0];
      }
    }
  }
}

=== FILE: paths.dfy ===
/** Node's POSIX `path.extname`: the extension of the last path segment, from its
    last '.' to its end. A segment with no '.', a segment whose only leading
    character is its last '.', and the segment ".." have no extension.
 */
module Paths {
  import opened Wrappers

  /** The path without the '/' characters at its end. */
  function TrimTrailingSlashes(p: string): (r: string)
    ensures |r| <= |p| && r == p[..|r|]
    ensures |r| == 0 || r[|r| - 1] != '/'
    ensures forall j :: |r| <= j < |p| ==> p[j] == '/'
  {
    if |p| > 0 && p[|p| - 1] == '/' then TrimTrailingSlashes(p[..|p| - 1]) else p
  }

  /** The position of the last `c` in `s`, if any. */
  function LastIndexOf(s: string, c: char): (r: Option<nat>)
    ensures r.Some? ==> r.value < |s| && s[r.value] == c
    ensures r.Some? ==> forall j :: r.value < j < |s| ==> s[j] != c
    ensures r.None? ==> forall j :: 0 <= j < |s| ==> s[j] != c
  {
    if |s| == 0 then None
    else if s[|s| - 1] == c then Some(|s| - 1)
    else LastIndexOf(s[..|s| - 1], c)
  }

  /** The last segment of a path, ignoring trailing separators. */
  function BaseName(p: string): (r: string)
    ensures forall j :: 0 <= j < |r| ==> r[j] != '/'
  {
    var t := TrimTrailingSlashes(p);
    match LastIndexOf(t, '/')
    case None => t
    case Some(k) => t[k + 1..]
  }

  /** `BaseName` is the last segment of the path once its trailing slashes are
      trimmed: a suffix of the trimmed path that is either all of it or preceded
      by a '/', and holds no '/' itself. */
  lemma BaseNameIsLastSegment(p: string)
    ensures var r, t := BaseName(p), TrimTrailingSlashes(p);
      && |r| <= |t| && r == t[|t| - |r|..]
      && (|r| == |t| || t[|t| - |r| - 1] == '/')
  {
    var t := TrimTrailingSlashes(p);
    match LastIndexOf(t, '/')
    case None =>
      assert BaseName(p) == t;
    case Some(k) =>
      assert BaseName(p) == t[k + 1..];
      assert |t| - |t[k + 1..]| - 1 == k;
  }

  /** `path.extname(p)`. */
  function ExtName(p: string): string {
    var b := BaseName(p);
    match LastIndexOf(b, '.')
    case None => ""
    case Some(k) => if k == 0 || b == ".." then "" else b[k..]
  }

  /** The shape of `path.extname`: the extension is empty exactly when the last
      segment is `..` or has no '.' after its first character; otherwise it is
      the segment's suffix from its last '.', which is not the first character. */
  lemma ExtNameShape(p: string)
    ensures var b := BaseName(p);
      ExtName(p) == "" <==> (b == ".." || forall j :: 1 <= j < |b| ==> b[j] != '.')
    ensures var r, b := ExtName(p), BaseName(p);
      r != "" ==> && r[0] == '.' && 1 <= |b| - |r| && b[|b| - |r|..] == r
                  && forall j :: 1 <= j < |r| ==> r[j] != '.'
  {
    var b := BaseName(p);
    match LastIndexOf(b, '.')
    case None =>
    case Some(k) =>
      if k != 0 && b != ".." {
        assert b[k..][0] == '.';
        forall j | 1 <= j < |b[k..]|
          ensures b[k..][j] != '.'
        {
          assert b[k..][j] == b[k + j];
        }
      }
  }

  /** The last segment of path `p` ends with `e` and is longer than it. */
  predicate HasExtension(p: string, e: string) {
    var b := BaseName(p);
    |b| > |e| && b[|b| - |e|..] == e
  }

  /** For an extension such as ".js" (a '.' followed by at least one character
      and by no further '.'), a path has that extension exactly when its last
      segment ends with it and is longer than it: "app.js" and "a/b.min.js" have
      extension ".js", ".js" and "app.js.map" do not. */
  lemma ExtNameIsSuffix(p: string, e: string)
    requires |e| >= 2 && e[0] == '.'
    requires forall j :: 1 <= j < |e| ==> e[j] != '.'
    ensures ExtName(p) == e <==> HasExtension(p, e)
  {
    var b := BaseName(p);
    var k0 := |b| - |e|;
    if |b| > |e| && b[k0..] == e {
      assert b[k0] == '.' by { assert b[k0..][0] == e[0]; }
      forall j | k0 < j < |b|
        ensures b[j] != '.'
      {
        assert b[k0..][j - k0] == e[j - k0];
      }
      match LastIndexOf(b, '.')
      case None =>
        assert false;
      case Some(k) =>
        assert k == k0;
    }
  }
}

=== FILE: resolver.dfy ===
/** The asset resolver: looks each region's asset reference up in the asset map
    and builds the three-line replacement for its span.
 */
module Resolver {
  import opened Wrappers
  import opened Paths
  import opened Scanner

  /** What resolution needs from its environment: the asset map's lookup
      (a mapped value or the error it reports), the configured base path
      `uiPath`, and `url.resolve`. */
  datatype Resolution = Resolution(
    lookup: string -> Result<string>,
    uiPath: string,
    resolve: (string, string) -> string)

  /** A region's old span and the span that takes its place. */
  datatype Replacement = Replacement(oldTag: seq<string>, newTag: seq<string>)

  function ScriptTag(src: string): string {
    "<script type=\"application/javascript\" src=\"" + src + "\"></script>"
  }

  function StylesheetTag(href: string): string {
    "<link rel=\"stylesheet\" href=\"" + href + "\"/>"
  }

  /** `getMiddleOfTag(originalValue, mappedValue)`: the markup line, chosen by
      the extension of the ORIGINAL reference. */
  function GetMiddleOfTag(res: Resolution, originalValue: string, mappedValue: string): string {
    if ExtName(originalValue) == ".js" then
      ScriptTag(res.resolve(res.uiPath, mappedValue))
    else if ExtName(originalValue) == ".css" then
      StylesheetTag(res.resolve(res.uiPath, mappedValue))
    else
      originalValue
  }

  /** No file name ends in both ".js" and ".css". */
  lemma OneExtension(term: string)
    ensures !(HasExtension(term, ".js") && HasExtension(term, ".css"))
  {
    var b := BaseName(term);
    if HasExtension(term, ".js") && |b| > 4 {
      assert b[|b| - 3] == '.' by { assert b[|b| - 3..][0] == ".js"[0]; }
      assert b[|b| - 4..][1] != ".css"[1];
    }
  }

  /** A reference whose file name ends in ".js" gets a script tag. */
  lemma ScriptMarkup(res: Resolution, term: string, mapped: string)
    requires HasExtension(term, ".js")
    ensures GetMiddleOfTag(res, term, mapped) == ScriptTag(res.resolve(res.uiPath, mapped))
  {
    ExtNameIsSuffix(term, ".js");
  }

  /** A reference whose file name ends in ".css" gets a stylesheet link. */
  lemma StylesheetMarkup(res: Resolution, term: string, mapped: string)
    requires HasExtension(term, ".css")
    ensures GetMiddleOfTag(res, term, mapped) == StylesheetTag(res.resolve(res.uiPath, mapped))
  {
    ExtNameIsSuffix(term, ".css");
  }

  /** Any other reference is its own markup. */
  lemma OtherMarkup(res: Resolution, term: string, mapped: string)
    requires !HasExtension(term, ".js") && !HasExtension(term, ".css")
    ensures GetMiddleOfTag(res, term, mapped) == term
  {
    ExtNameIsSuffix(term, ".js");
    ExtNameIsSuffix(term, ".css");
  }

  /** The markup by file name: a script tag for a reference whose file name ends
      in ".js", a stylesheet link for ".css", both pointing at the mapped value
      resolved against `uiPath`; for any other reference, the reference itself,
      whatever the mapped value. */
  lemma MarkupByFileName(res: Resolution, term: string, mapped: string)
    ensures HasExtension(term, ".js") ==>
              GetMiddleOfTag(res, term, mapped) == ScriptTag(res.resolve(res.uiPath, mapped))
    ensures HasExtension(term, ".css") ==>
              GetMiddleOfTag(res, term, mapped) == StylesheetTag(res.resolve(res.uiPath, mapped))
    ensures !HasExtension(term, ".js") && !HasExtension(term, ".css") ==>
              GetMiddleOfTag(res, term, mapped) == term
  {
    OneExtension(term);
    if HasExtension(term, ".js") {
      ScriptMarkup(res, term, mapped);
    } else if HasExtension(term, ".css") {
      StylesheetMarkup(res, term, mapped);
    } else {
      OtherMarkup(res, term, mapped);
    }
  }

  /** `getNewTag(matchTerm, tag)`: on a successful lookup the old span is kept as
      `oldTag` and the new span has exactly three lines, the span's first line,
      the markup and the span's last line (the same line twice for a one-line
      span); on a failed lookup, the lookup's error and no replacement. */
  function GetNewTag(res: Resolution, matchTerm: string, tag: seq<string>): (r: Result<Replacement>)
    requires |tag| > 0
    ensures res.lookup(matchTerm).Failure? <==> r.Failure?
    ensures r.Failure? ==> r.error == res.lookup(matchTerm).error
    ensures r.Success? ==> r.value.oldTag == tag && |r.value.newTag| == 3
    ensures r.Success? ==>
              && r.value.newTag[0] == tag[0]
              && r.value.newTag[1] == GetMiddleOfTag(res, matchTerm, res.lookup(matchTerm).value)
              && r.value.newTag[2] == tag[|tag| - 1]
    ensures r.Success? && |tag| == 1 ==> r.value.newTag[0] == r.value.newTag[2]
  {
    var mappedValue :- res.lookup(matchTerm);
    Success(Replacement(tag, [tag[0], GetMiddleOfTag(res, matchTerm, mappedValue), tag[|tag| - 1]]))
  }

  /** The replacement for one scanned tag. */
  function Resolve(res: Resolution, tag: Tag): Result<Replacement> {
    GetNewTag(res, tag.Term(), tag.Span())
  }

  /** What one scanned tag resolves to: the reference looked up is the start
      match's capture group, and the span that is replaced (and whose first line
      is kept) starts with the start match's text, not the whole start line,
      followed by the collected lines. */
  lemma ResolveTag(res: Resolution, tag: Tag)
    ensures Resolve(res, tag).Failure? <==> res.lookup(tag.start.term).Failure?
    ensures Resolve(res, tag).Failure? ==>
              Resolve(res, tag).error == res.lookup(tag.start.term).error
    ensures Resolve(res, tag).Success? ==>
              && Resolve(res, tag).value.oldTag == [tag.start.text] + tag.following
              && Resolve(res, tag).value.newTag ==
                   [tag.start.text,
                    GetMiddleOfTag(res, tag.start.term, res.lookup(tag.start.term).value),
                    ([tag.start.text] + tag.following)[|tag.following|]]
  {
    var span := tag.Span();
    assert span == [tag.start.text] + tag.following;
    assert span[|span| - 1] == ([tag.start.text] + tag.following)[|tag.following|];
  }

  /** Every tag's reference is found in the asset map. */
  predicate AllFound(res: Resolution, tags: seq<Tag>) {
    forall k :: 0 <= k < |tags| ==> res.lookup(tags[k].Term()).Success?
  }

  /** Tag `k` is the first, in scan order, whose reference the asset map fails on. */
  predicate FirstMissing(res: Resolution, tags: seq<Tag>, k: nat) {
    && k < |tags|
    && res.lookup(tags[k].Term()).Failure?
    && forall j :: 0 <= j < k ==> res.lookup(tags[j].Term()).Success?
  }

  /** The `newTags` stage (`async.map` over the tags, failing fast): it succeeds
      exactly when every reference is found, and then holds one replacement per
      tag; otherwise it reports the error of the first failing reference. */
  function NewTags(res: Resolution, tags: seq<Tag>): (r: Result<seq<Replacement>>)
    ensures r.Success? <==> AllFound(res, tags)
    ensures r.Success? ==> |r.value| == |tags|
    ensures r.Failure? ==>
              exists k: nat :: FirstMissing(res, tags, k) && r.error == res.lookup(tags[k].Term()).error
  {
    if |tags| == 0 then Success([])
    else
      var first :- Resolve(res, tags[0]);
      var rest :- NewTags(res, tags[1..]);
      Success([first] + rest)
  }

  /** On success, `newTags` keeps the scan order: its `k`-th replacement is the
      one the `k`-th tag resolves to. */
  lemma {:induction false} NewTagsInOrder(res: Resolution, tags: seq<Tag>)
    ensures var r := NewTags(res, tags);
      r.Success? ==> forall k :: 0 <= k < |tags| ==> Resolve(res, tags[k]) == Success(r.value[k])
    decreases |tags|
  {
    var r := NewTags(res, tags);
    if |tags| > 0 && r.Success? {
      NewTagsStep(res, tags);
      NewTagsInOrder(res, tags[1..]);
      forall k | 1 <= k < |tags|
        ensures Resolve(res, tags[k]) == Success(r.value[k])
      {
        assert tags[k] == tags[1..][k - 1];
        assert r.value[k] == r.value[1..][k - 1];
      }
    }
  }

  /** The `newTags` stage on one tag whose reference is found. */
  lemma NewTagsOfOne(res: Resolution, t: Tag)
    requires res.lookup(t.Term()).Success?
    ensures NewTags(res, [t]) == Success([Resolve(res, t).value])
  {
    NewTagsOfFound(res, [t]);
    var one := NewTags(res, [t]).value;
    assert |one| == 1 && one[0] == Resolve(res, t).value;
    assert one == [Resolve(res, t).value];
  }

  /** The `newTags` stage on two tags whose references are found: the two
      replacements, in order. */
  lemma NewTagsOfTwo(res: Resolution, t0: Tag, t1: Tag)
    requires res.lookup(t0.Term()).Success? && res.lookup(t1.Term()).Success?
    ensures NewTags(res, [t0, t1]) == Success([Resolve(res, t0).value, Resolve(res, t1).value])
  {
    var v0, v1 := Resolve(res, t0).value, Resolve(res, t1).value;
    NewTagsOfOne(res, t1);
    assert [t0, t1][0] == t0 && [t0, t1][1..] == [t1];
    assert [v0] + [v1] == [v0, v1];
  }

  /** When every tag's reference is found, the stage succeeds with each tag's replacement in
      its place. */
  lemma NewTagsOfFound(res: Resolution, tags: seq<Tag>)
    requires AllFound(res, tags)
    ensures NewTags(res, tags).Success?
    ensures forall k :: 0 <= k < |tags| ==>
              NewTags(res, tags).value[k] == Resolve(res, tags[k]).value
  {
    NewTagsInOrder(res, tags);
  }

  /** A successful `newTags` stage starts with the first tag's replacement and
      goes on with the stage's result on the other tags. */
  lemma NewTagsStep(res: Resolution, tags: seq<Tag>)
    requires |tags| > 0 && NewTags(res, tags).Success?
    ensures var r := NewTags(res, tags).value;
      Resolve(res, tags[0]) == Success(r[0]) && NewTags(res, tags[1..]) == Success(r[1..])
  {
    var first := Resolve(res, tags[0]).value;
    var rest := NewTags(res, tags[1..]).value;
    assert NewTags(res, tags).value == [first] + rest;
  }

  /** A region that starts on the last line has a one-line span, the start
      match's text, so its replacement repeats that text around the markup. */
  lemma LastLineReplacement(res: Resolution, content: seq<string>, markers: Markers, k: nat,
                            mapped: string)
    requires k < |Tags(content, markers)|
    requires Tags(content, markers)[k].line == |content| - 1
    requires res.lookup(Tags(content, markers)[k].Term()) == Success(mapped)
    ensures var t := Tags(content, markers)[k];
      Resolve(res, t) ==
        Success(Replacement([t.start.text],
                            [t.start.text, GetMiddleOfTag(res, t.Term(), mapped), t.start.text]))
  {
    var t := Tags(content, markers)[k];
    assert t.following == [];
    assert t.Span() == [t.start.text];
  }
}

=== FILE: scanner.dfy ===
/** The tag scanner: finds the regions of a document, given as its list of lines.
    The start and end regular expressions are abstracted as functions of a line.
 */
module Scanner {
  import opened Wrappers

  /** A successful match of the start expression: the matched text (`match[0]`)
      and its first capture group, the asset reference (`match[1]`). */
  datatype StartMatch = StartMatch(text: string, term: string)

  /** The compiled start and end expressions, applied to one line at a time. */
  datatype Markers = Markers(start: string -> Option<StartMatch>, isEnd: string -> bool)

  /** A line opens a region when the start expression matches it and the end
      expression does not. */
  predicate Opens(markers: Markers, line: string) {
    markers.start(line).Some? && !markers.isEnd(line)
  }

  /** Line `i` of the document opens a region. */
  predicate OpensAt(content: seq<string>, markers: Markers, i: nat) {
    i < |content| && Opens(markers, content[i])
  }

  /** Line `j` of the document matches the end expression. */
  predicate EndsAt(content: seq<string>, isEnd: string -> bool, j: nat) {
    j < |content| && isEnd(content[j])
  }

  /** One region found by the scan: the index of its start line, the start match,
      and the lines collected after it (the middle lines and, when one was found,
      the end line). */
  datatype Tag = Tag(line: nat, start: StartMatch, following: seq<string>) {

    /** The asset reference to look up. */
    function Term(): string {
      start.term
    }

    /** The span the region is replaced as: the start match's text, then the
        collected lines. */
    function Span(): (r: seq<string>)
      ensures |r| >= 1
    {
      [start.text] + following
    }
  }

  /** `extractMiddleOfTag(content, startingLine)`: the lines from `startingLine`
      up to and including the first one the end expression matches, or all the
      remaining lines when none does. */
  function ExtractMiddleOfTag(content: seq<string>, startingLine: nat, isEnd: string -> bool)
    : (r: seq<string>)
    decreases |content| - startingLine
  {
    if startingLine >= |content| then []
    else if isEnd(content[startingLine]) then [content[startingLine]]
    else [content[startingLine]] + ExtractMiddleOfTag(content, startingLine + 1, isEnd)
  }

  /** What `extractMiddleOfTag` collects: a run of consecutive lines starting at
      `startingLine`, none of which but the last matches the end expression; it
      stops at the first end line when there is one at or after `startingLine`,
      and otherwise runs to the end of the document (nothing at all when
      `startingLine` is past the last line). */
  lemma {:induction false} ExtractMiddleOfTagSpec(content: seq<string>, startingLine: nat,
                                                  isEnd: string -> bool)
    ensures var r := ExtractMiddleOfTag(content, startingLine, isEnd);
      && (|r| == 0 || startingLine + |r| <= |content|)
      && (|r| > 0 ==> r == content[startingLine..startingLine + |r|])
      && (forall k :: 0 <= k < |r| - 1 ==> !isEnd(r[k]))
      && ((|r| > 0 && isEnd(r[|r| - 1])) <==>
            exists j: nat :: startingLine <= j && EndsAt(content, isEnd, j))
      && (!(|r| > 0 && isEnd(r[|r| - 1])) ==> startingLine + |r| >= |content|)
    decreases |content| - startingLine
  {
    var r := ExtractMiddleOfTag(content, startingLine, isEnd);
    if startingLine >= |content| {
    } else if isEnd(content[startingLine]) {
      assert EndsAt(content, isEnd, startingLine);
    } else {
      ExtractMiddleOfTagSpec(content, startingLine + 1, isEnd);
      var rest := ExtractMiddleOfTag(content, startingLine + 1, isEnd);
      assert r == [content[startingLine]] + rest;
      assert forall k :: 1 <= k < |r| ==> r[k] == rest[k - 1];
      assert !EndsAt(content, isEnd, startingLine);
    }
  }

  /** The `tags` stage from line `from` on: a tag for lines that open a region,
      in document order, each collecting the lines that follow its own start
      line, whatever other regions there are. */
  function TagsFrom(content: seq<string>, markers: Markers, from: nat): (r: seq<Tag>)
    ensures forall k :: 0 <= k < |r| ==>
              from <= r[k].line < |content| && Opens(markers, content[r[k].line])
    ensures forall k :: 0 <= k < |r| ==>
              markers.start(content[r[k].line]) == Some(r[k].start)
    ensures forall k :: 0 <= k < |r| ==>
              r[k].following == ExtractMiddleOfTag(content, r[k].line + 1, markers.isEnd)
    ensures forall k, l :: 0 <= k < l < |r| ==> r[k].line < r[l].line
    decreases |content| - from
  {
    if from >= |content| then []
    else
      var line := content[from];
      var rest := TagsFrom(content, markers, from + 1);
      if Opens(markers, line) then
        [Tag(from, markers.start(line).value,
             ExtractMiddleOfTag(content, from + 1, markers.isEnd))] + rest
      else rest
  }

  /** Every line from `from` on that opens a region has a tag in `tags`. */
  ghost predicate Covers(tags: seq<Tag>, content: seq<string>, markers: Markers, from: nat) {
    forall i: nat :: from <= i && OpensAt(content, markers, i) ==>
      exists k :: 0 <= k < |tags| && tags[k].line == i
  }

  /** No line that opens a region is missed by the scan from `from` on. */
  lemma {:induction false} TagsFromCovers(content: seq<string>, markers: Markers, from: nat)
    ensures Covers(TagsFrom(content, markers, from), content, markers, from)
    decreases |content| - from
  {
    if from < |content| {
      TagsFromCovers(content, markers, from + 1);
      var rest := TagsFrom(content, markers, from + 1);
      var r := TagsFrom(content, markers, from);
      assert Covers(rest, content, markers, from + 1);
      forall i: nat | from <= i && OpensAt(content, markers, i)
        ensures exists k :: 0 <= k < |r| && r[k].line == i
      {
        if i == from {
          assert r[0].line == from;
        } else {
          var k :| 0 <= k < |rest| && rest[k].line == i;
          if Opens(markers, content[from]) {
            assert r[k + 1].line == i;
          } else {
            assert r[k].line == i;
          }
        }
      }
    }
  }

  /** The `tags` stage: exactly one tag for each line that opens a region, in
      document order. Each tag records the start match of its line and the lines
      `extractMiddleOfTag` collects from the line after it. */
  function Tags(content: seq<string>, markers: Markers): (r: seq<Tag>)
    ensures forall k :: 0 <= k < |r| ==>
              r[k].line < |content| && Opens(markers, content[r[k].line])
    ensures forall k :: 0 <= k < |r| ==>
              markers.start(content[r[k].line]) == Some(r[k].start)
    ensures forall k :: 0 <= k < |r| ==>
              r[k].following == ExtractMiddleOfTag(content, r[k].line + 1, markers.isEnd)
    ensures forall k, l :: 0 <= k < l < |r| ==> r[k].line < r[l].line
    ensures forall i: nat :: OpensAt(content, markers, i) ==>
              exists k :: 0 <= k < |r| && r[k].line == i
  {
    TagsFromCovers(content, markers, 0);
    TagsFrom(content, markers, 0)
  }

  /** When line `e` is the first end line at or after `from`, the lines collected
      from `from` are exactly those from `from` through `e`. */
  lemma ExtractUpToFirstEnd(content: seq<string>, from: nat, isEnd: string -> bool, e: nat)
    requires from <= e && EndsAt(content, isEnd, e)
    requires forall j: nat :: from <= j < e ==> !EndsAt(content, isEnd, j)
    ensures ExtractMiddleOfTag(content, from, isEnd) == content[from..e + 1]
  {
    ExtractMiddleOfTagSpec(content, from, isEnd);
    var r := ExtractMiddleOfTag(content, from, isEnd);
    assert |r| > 0 && isEnd(r[|r| - 1]);
    var last := from + |r| - 1;
    assert r[|r| - 1] == content[last];
    assert EndsAt(content, isEnd, last);
  }

  /** When no line at or after `from` matches the end expression, the lines
      collected from `from` are all the remaining lines of the document. */
  lemma ExtractWithoutEnd(content: seq<string>, from: nat, isEnd: string -> bool)
    requires from <= |content|
    requires forall j: nat :: from <= j ==> !EndsAt(content, isEnd, j)
    ensures ExtractMiddleOfTag(content, from, isEnd) == content[from..]
  {
    ExtractMiddleOfTagSpec(content, from, isEnd);
  }

  /** Line `s` is the only line that opens a region, and line `e` is the first
      end line after it. */
  ghost predicate SingleRegion(content: seq<string>, markers: Markers, s: nat, e: nat) {
    && s < e
    && OpensAt(content, markers, s)
    && (forall i: nat :: OpensAt(content, markers, i) ==> i == s)
    && EndsAt(content, markers.isEnd, e)
    && (forall j: nat :: s < j < e ==> !EndsAt(content, markers.isEnd, j))
  }

  /** A document with a single region yields a single tag, whose collected lines
      are the region's middle lines and its end line. */
  lemma TagsOfSingleRegion(content: seq<string>, markers: Markers, s: nat, e: nat)
    requires SingleRegion(content, markers, s, e)
    ensures Tags(content, markers) ==
              [Tag(s, markers.start(content[s]).value, content[s + 1..e + 1])]
  {
    var r := Tags(content, markers);
    var k :| 0 <= k < |r| && r[k].line == s;
    assert |r| == 1 by {
      if |r| > 1 {
        assert r[0].line < r[1].line;
        assert OpensAt(content, markers, r[0].line);
        assert OpensAt(content, markers, r[1].line);
      }
    }
    ExtractUpToFirstEnd(content, s + 1, markers.isEnd, e);
  }

  /** Line `s` is the only line that opens a region, and no line after it
      ends one. */
  ghost predicate SingleOpenRegion(content: seq<string>, markers: Markers, s: nat) {
    && OpensAt(content, markers, s)
    && (forall i: nat :: OpensAt(content, markers, i) ==> i == s)
    && (forall j: nat :: s < j ==> !EndsAt(content, markers.isEnd, j))
  }

  /** A document with a single region and no end line yields a single tag,
      which collects every line after the start line. */
  lemma TagsOfSingleOpenRegion(content: seq<string>, markers: Markers, s: nat)
    requires SingleOpenRegion(content, markers, s)
    ensures Tags(content, markers) ==
              [Tag(s, markers.start(content[s]).value, content[s + 1..])]
  {
    var r := Tags(content, markers);
    var k :| 0 <= k < |r| && r[k].line == s;
    assert |r| == 1 by {
      if |r| > 1 {
        assert r[0].line < r[1].line;
        assert OpensAt(content, markers, r[0].line);
        assert OpensAt(content, markers, r[1].line);
      }
    }
    ExtractWithoutEnd(content, s + 1, markers.isEnd);
  }

  /** A region with no end line after its start line collects every line after
      it: its span is the start match's text and the rest of the document. */
  lemma OpenRegionSpan(content: seq<string>, markers: Markers, k: nat)
    requires k < |Tags(content, markers)|
    requires forall j: nat :: Tags(content, markers)[k].line < j ==> !EndsAt(content, markers.isEnd, j)
    ensures var t := Tags(content, markers)[k];
      t.Span() == [t.start.text] + content[t.line + 1..]
  {
    var t := Tags(content, markers)[k];
    ExtractWithoutEnd(content, t.line + 1, markers.isEnd);
  }

  /** A one-line document whose line opens a region holds that one region,
      with nothing collected after it. */
  lemma TagsOfOneLine(content: seq<string>, markers: Markers, m: StartMatch)
    requires |content| == 1 && markers.start(content[0]) == Some(m) && !markers.isEnd(content[0])
    ensures Tags(content, markers) == [Tag(0, m, [])]
  {
    assert TagsFrom(content, markers, 1) == [];
    assert ExtractMiddleOfTag(content, 1, markers.isEnd) == [];
  }

  /** A three-line document whose first and last lines are the same opening line
      and whose middle line neither opens nor ends a region holds two regions:
      the first collects the two lines after it, the last collects nothing. */
  lemma TagsOfRepeatedLine(content: seq<string>, markers: Markers, m: StartMatch)
    requires |content| == 3 && content[2] == content[0]
    requires markers.start(content[0]) == Some(m) && !markers.isEnd(content[0])
    requires markers.start(content[1]) == None && !markers.isEnd(content[1])
    ensures Tags(content, markers) ==
              [Tag(0, m, [content[1], content[0]]), Tag(2, m, [])]
  {
    var isEnd := markers.isEnd;
    assert ExtractMiddleOfTag(content, 3, isEnd) == [];
    assert ExtractMiddleOfTag(content, 2, isEnd) == [content[0]];
    assert ExtractMiddleOfTag(content, 1, isEnd) == [content[1], content[0]];
    assert TagsFrom(content, markers, 3) == [];
    assert TagsFrom(content, markers, 2) == [Tag(2, m, [])];
    assert TagsFrom(content, markers, 1) == [Tag(2, m, [])];
  }
}

=== FILE: text.dfy ===
/** The JavaScript string operations the pipeline relies on, with a string
    pattern (never a regular expression): `indexOf`, `split`, `Array.join` and the
    first-occurrence `replace`. Strings are sequences of characters.
 */
module Text {
  import opened Wrappers

  /** A line separator such as the platform's end-of-line marker; never empty. */
  type Separator = s: string | |s| > 0 witness "\n"

  /** `pat` occurs in `text` starting at position `k`. */
  predicate OccursAt(text: string, pat: string, k: nat) {
    k + |pat| <= |text| && text[k..k + |pat|] == pat
  }

  /** `k` is the leftmost position at which `pat` occurs in `text`. */
  predicate FirstOccurrence(text: string, pat: string, k: nat) {
    OccursAt(text, pat, k) && forall j: nat :: j < k ==> !OccursAt(text, pat, j)
  }

  /** The leftmost occurrence of `pat` at or after `from`, if there is one. */
  function IndexOfFrom(text: string, pat: string, from: nat): (r: Option<nat>)
    ensures r.Some? ==> from <= r.value && OccursAt(text, pat, r.value)
    ensures r.Some? ==> forall j: nat :: from <= j < r.value ==> !OccursAt(text, pat, j)
    ensures r.None? ==> forall j: nat :: from <= j ==> !OccursAt(text, pat, j)
    decreases |text| - from
  {
    if from + |pat| > |text| then None
    else if text[from..from + |pat|] == pat then Some(from)
    else IndexOfFrom(text, pat, from + 1)
  }

  /** `text.indexOf(pat)`; an empty pattern is found at position 0. */
  function IndexOf(text: string, pat: string): (r: Option<nat>)
    ensures r.Some? <==> exists k: nat :: OccursAt(text, pat, k)
    ensures r.Some? ==> FirstOccurrence(text, pat, r.value)
  {
    IndexOfFrom(text, pat, 0)
  }

  /** `text.replace(pat, replacement)` with a string pattern: only the leftmost occurrence
      is replaced, and the text is returned unchanged when `pat` does not occur.
      The replacement is taken literally. */
  function ReplaceFirst(text: string, pat: string, replacement: string): (r: string)
    ensures (forall j: nat :: !OccursAt(text, pat, j)) ==> r == text
    ensures forall k: nat :: FirstOccurrence(text, pat, k) ==>
              r == text[..k] + replacement + text[k + |pat|..]
  {
    match IndexOf(text, pat)
    case None => text
    case Some(k) =>
      FirstOccurrenceUnique(text, pat, k);
      text[..k] + replacement + text[k + |pat|..]
  }

  lemma FirstOccurrenceUnique(text: string, pat: string, k: nat)
    requires FirstOccurrence(text, pat, k)
    ensures forall k': nat :: FirstOccurrence(text, pat, k') ==> k' == k
  {
  }

  /** `lines.join(sep)`: the empty list joins to the empty string. */
  function Join(lines: seq<string>, sep: Separator): string
    decreases |lines|
  {
    if |lines| == 0 then ""
    else if |lines| == 1 then lines[0]
    else lines[0] + sep + Join(lines[1..], sep)
  }

  /** `s.split(sep)`: the pieces between the occurrences of `sep`, found left to
      right without overlap. There is always at least one piece, and no piece
      contains the separator. */
  function Split(s: string, sep: Separator): (r: seq<string>)
    ensures |r| >= 1
    ensures forall k: nat, j: nat :: k < |r| ==> !OccursAt(r[k], sep, j)
    decreases |s|
  {
    match IndexOf(s, sep)
    case None => [s]
    case Some(i) =>
      PrefixBeforeFirstHasNone(s, sep, i);
      [s[..i]] + Split(s[i + |sep|..], sep)
  }

  /** Where `split` cuts: a text without the separator is its own single piece,
      and otherwise the first piece ends where the separator first occurs (so
      the pieces are fixed even for a separator that overlaps itself). */
  lemma SplitFirstPiece(s: string, sep: Separator)
    ensures var r := Split(s, sep);
      && (|r| == 1 <==> forall j: nat :: !OccursAt(s, sep, j))
      && (|r| == 1 ==> r[0] == s)
      && (|r| > 1 ==> FirstOccurrence(s, sep, |r[0]|))
  {
    match IndexOf(s, sep)
    case None =>
      assert Split(s, sep) == [s];
    case Some(i) =>
      var r := Split(s, sep);
      var rest := Split(s[i + |sep|..], sep);
      assert r == [s[..i]] + rest;
      assert |r| > 1 && |r[0]| == i;
      assert OccursAt(s, sep, i);
  }

  /** The text before the first occurrence of `pat` does not contain `pat`. */
  lemma PrefixBeforeFirstHasNone(s: string, pat: string, i: nat)
    requires |pat| > 0 && FirstOccurrence(s, pat, i)
    ensures forall j: nat :: !OccursAt(s[..i], pat, j)
  {
    forall j: nat | OccursAt(s[..i], pat, j)
      ensures false
    {
      assert s[..i][j..j + |pat|] == s[j..j + |pat|];
      assert OccursAt(s, pat, j);
    }
  }

  /** Splitting a text and joining the pieces with the same separator gives the
      text back: the line list of a document loses nothing. */
  lemma {:induction false} JoinSplit(s: string, sep: Separator)
    ensures Join(Split(s, sep), sep) == s
    decreases |s|
  {
    match IndexOf(s, sep)
    case None =>
    case Some(i) =>
      var rest := s[i + |sep|..];
      var pieces := Split(rest, sep);
      assert Split(s, sep) == [s[..i]] + pieces;
      JoinSplit(rest, sep);
      assert Join([s[..i]] + pieces, sep) == s[..i] + sep + rest by {
        JoinAppend([s[..i]], pieces, sep);
      }
      CutAt(s, sep, i);
  }

  /** A text is the part before an occurrence of `pat`, `pat`, and the part after. */
  lemma CutAt(s: string, pat: string, i: nat)
    requires OccursAt(s, pat, i)
    ensures s[..i] + pat + s[i + |pat|..] == s
  {
    assert s[..i] + s[i..i + |pat|] == s[..i + |pat|];
    assert s[..i + |pat|] + s[i + |pat|..] == s;
  }

  /** Joining two non-empty line lists puts exactly one separator between them. */
  lemma {:induction false} JoinAppend(a: seq<string>, b: seq<string>, sep: Separator)
    requires |a| > 0 && |b| > 0
    ensures Join(a + b, sep) == Join(a, sep) + sep + Join(b, sep)
    decreases |a|
  {
    if |a| == 1 {
      assert (a + b)[1..] == b;
    } else {
      JoinAppend(a[1..], b, sep);
      assert (a + b)[1..] == a[1..] + b;
    }
  }

  /** The joined text that precedes a line: the earlier lines and one
      separator, or nothing when there are no earlier lines. */
  function JoinedBefore(a: seq<string>, sep: Separator): string {
    if |a| == 0 then "" else Join(a, sep) + sep
  }

  /** The joined text that follows a line: one separator and the later lines,
      or nothing when there are no later lines. */
  function JoinedAfter(b: seq<string>, sep: Separator): string {
    if |b| == 0 then "" else sep + Join(b, sep)
  }

  /** Joining a non-empty line list and then the lines after it. */
  lemma JoinThenAfter(a: seq<string>, b: seq<string>, sep: Separator)
    requires |a| > 0
    ensures Join(a + b, sep) == Join(a, sep) + JoinedAfter(b, sep)
  {
    if |b| == 0 {
      assert a + b == a;
    } else {
      JoinAppend(a, b, sep);
    }
  }

  /** In a joined document, a line sits between the text of the lines before it
      and the text of the lines after it. */
  lemma {:induction false} JoinAround(a: seq<string>, x: string, b: seq<string>, sep: Separator)
    ensures Join(a + [x] + b, sep) == JoinedBefore(a, sep) + x + JoinedAfter(b, sep)
  {
    var tail := [x] + b;
    assert Join(tail, sep) == x + JoinedAfter(b, sep) by {
      JoinThenAfter([x], b, sep);
    }
    if |a| == 0 {
      assert a + [x] + b == tail;
    } else {
      assert a + [x] + b == a + tail;
      JoinAppend(a, tail, sep);
    }
  }

  /** When the text starts with the pattern, the replace puts the replacement in
      place of that prefix. */
  lemma ReplacePrefix(text: string, pat: string, replacement: string)
    requires |pat| <= |text| && text[..|pat|] == pat
    ensures ReplaceFirst(text, pat, replacement) == replacement + text[|pat|..]
  {
    assert FirstOccurrence(text, pat, 0);
  }

  /** When the leftmost occurrence of the pattern ends the text, a replacement
      that starts with the pattern appends the rest of it to the text. */
  lemma ReplaceSuffix(text: string, pat: string, rest: string)
    requires |pat| <= |text| && FirstOccurrence(text, pat, |text| - |pat|)
    ensures ReplaceFirst(text, pat, pat + rest) == text + rest
  {
    var k := |text| - |pat|;
    assert text[k + |pat|..] == [];
    assert text[..k] + pat == text by { assert text[k..] == pat; }
  }

  /** Three lines joined. */
  lemma JoinThree(a: string, b: string, c: string, sep: Separator)
    ensures Join([a, b, c], sep) == a + sep + b + sep + c
  {
    assert [b, c][1..] == [c];
    assert Join([b, c], sep) == b + sep + c;
    assert [a, b, c][1..] == [b, c];
    assert a + sep + (b + sep + c) == a + sep + b + sep + c;
  }
}

=== FILE: wrappers.dfy ===
/** Failure-compatible wrappers used throughout the model.
    - Option<T>: a value that may be absent (a regular expression that did not match,
      a substring that does not occur).
    - Result<T>: a value or an error message, as delivered to a Node-style callback
      `(err, value)`.
 */
module Wrappers {

  datatype Option<+T> = None | Some(value: T)

  /** Either a computed value or the error handed to the callback. */
  datatype Result<+T> = Success(value: T) | Failure(error: string) {

    predicate IsFailure() {
      Failure?
    }

    function PropagateFailure<U>(): Result<U>
      requires Failure?
    {
      Failure(error)
    }

    function Extract(): T
      requires Success?
    {
      value
    }
  }
}
